=== FILE: README.md ===
# Rental-listing crawl pipeline: a Dafny model

This project models the deterministic core of the `crawl` pipeline of the
pararilytics repository, a crawler for rental-apartment listings. The model
covers four parts:

- **The field extractor** (`crawl/house/house.go`). Five parsers turn the
  selected texts of one detail page into a `House`: ID from the URL path,
  price, address, area and offer date. `BuildFromElement` runs them in
  order, stops at the first failure, logs it and returns normally.
- **The dedup cache** (`crawl/cache/house.go`). This is one Redis set under
  the key `HOUSES` with one expiry for the whole set. The model is a value
  `Store(members, expiry)` read through a clock. The key exists exactly when
  the set is non-empty.
- **The coordinator pass** (`crawl/crawl.go`). It is a pure function from the
  cache state, the scraped houses and the clock readings to the published
  batch and the new cache state.
- **Small pieces around them**:
  - the listing-URL builder and the one-house-per-detail-element handler
    (`crawl/scraper/scrap.go`);
  - the older value-receiver extractor (`crawler/crawler.go`);
  - the write filter of `collect/collect.go`.

The Go library functions the parsers rely on are modelled as pure functions:

- `strings.Split`, `strings.Join` and `strings.TrimRight` (module `GoStrings`);
- the deleting `strings.Replacer` (`GoStrings`);
- `strconv.Atoi`, `strconv.Itoa` and `uint(...)` (module `Decimal`);
- `time.Parse` and `Time.Format` with layout `"02-01-2006"` (module `GoTime`).

Strings are sequences of Unicode code points. Every separator the code uses
is ASCII, so on valid UTF-8 this matches Go's byte-wise behaviour.

The price replacer's currency literal is modelled exactly as the source
spells it. That is the three characters `â‚¬` (U+00E2 U+201A U+00AC), a
mis-decoded euro sign. The euro sign U+20AC itself is therefore not deleted,
and a price text that starts with it fails to parse (`EuroSignNotDeleted`).

Files:

- `wrappers.dfy`: the `Option` and `Result` types.
- `decimal.dfy`, `gostrings.dfy`, `gotime.dfy`: the Go library semantics.
- `house.dfy` (module `Extractor`): the extractor.
- `cache.dfy`: the dedup cache.
- `crawl.dfy`: the coordinator pass.
- `scraper.dfy`: the listing URL and the detail handler.
- `crawler.dfy`: the older value-receiver extractor.
- `collect.dfy`: the `collect` write filter.

## Behaviour of the code worth knowing

- A page whose extraction fails still yields a house, partly filled. The
  scraper appends it anyway, so a page whose ID failed produces a house with
  an empty ID downstream.
- In a pass whose read does not yet find `""`, every house whose ID failed
  is published. When `SADD` succeeds, `""` is added to the cache
  (`CachedNeverPublished`, `MembershipAfterPass`). In later passes, as long
  as the read succeeds and the set has not expired, such houses are filtered
  out (`EmptyIdFilteredOnceCached`, `NoDedupWithinPass`). A pass whose read
  fails publishes them again (`NilReadKeepsAll`).
- Houses with the same ID in one pass are both published
  (`NoDedupWithinPass`).
- Only the houses judged new are written to the cache. When `SADD`
  succeeds and the set does not expire during the pass, the membership
  afterwards is the old membership together with every scraped ID
  (`MembershipAfterPass`). When every Redis call succeeds and the set does
  expire during the pass, only the published IDs remain
  (`ExpiryDuringScrape`).
- The results of `SADD` and `EXPIREAT` are ignored. When `SADD` fails, the
  published IDs are not recorded, so a later pass publishes them again
  (`FailedAddForgets`). When `EXPIREAT` fails after a first add, the set has
  no expiry.
- The offer date is read only in the absolute `DD-MM-YYYY` form. Any other
  text is an offer-date error.
- An extraction failure is not returned as an error value. It is logged,
  and the house is returned as far as it was filled.

## Model

| member | source | states |
|---|---|---|
| Decimal.Atoi | crawl/house/house.go:90 | Accepts only an optional sign followed by at least one decimal digit, with a value inside the 64-bit `int` range. A negative value comes only from a leading `-`. |
| Decimal.ToUint | crawl/house/house.go:95 | `uint(v)` is the unique value below 2^64 that is congruent to `v` modulo 2^64, so negative numbers wrap. |
| Decimal.Itoa | crawl/scraper/scrap.go:74 | The text is never empty and starts with `-` exactly for negative numbers. Its meaning as the decimal text of the number comes from `AtoiItoa`, which reads every 64-bit value back, and from `ItoaInjective`. |
| Decimal.AtoiItoa | crawl/scraper/scrap.go:74 | `strconv.Atoi` reads back every 64-bit value that `strconv.Itoa` writes. |
| Decimal.AtoiNatural | crawl/house/house.go:90 | `strconv.Atoi` reads back the decimal text of every non-negative 64-bit value. |
| Decimal.AtoiNegative | crawl/house/house.go:90 | `strconv.Atoi` reads a minus sign followed by digits as the negated value, down to the 64-bit minimum. |
| Decimal.ItoaInjective | crawl/scraper/scrap.go:73-75 | Distinct numbers have distinct decimal texts. |
| Decimal.DigitsConcat | crawl/house/house.go:88-90 | Two adjacent digit runs denote the first shifted left past the second. This is why deleting a thousands separator joins the groups into one number. |
| GoStrings.Split | crawl/house/house.go:101 | n separators give n+1 parts. The result is never empty, so the `len < 1` guards are unreachable, and no part contains the separator. |
| GoStrings.JoinSplit | crawl/scraper/scrap.go:33 | Joining the parts of a split with the separator restores the original text. |
| GoStrings.SplitJoin | crawl/house/house.go:100-108 | Splitting a join of separator-free parts returns exactly those parts. |
| GoStrings.SplitFirst | crawl/house/house.go:83 | The first part is the prefix of the text up to its first separator, or the whole text when there is none. |
| GoStrings.TrimRight | crawl/house/house.go:118-119 | The result is the longest prefix that does not end in the cut character. Everything removed is that character. |
| GoStrings.DeleteAll | crawl/house/house.go:88-90 | The replacer never lengthens the text. What it deletes, and what it keeps, is stated by the `DeleteAll*` lemmas below. |
| GoStrings.DeleteAllRemovesChar | crawl/house/house.go:88-90 | After the replacer runs, no one-character deleted string (the `,`) is left, and the text never grows. |
| GoStrings.DeleteAllKeeps | crawl/house/house.go:88-90 | Text in which no deleted string can start comes out of the replacer unchanged. |
| GoStrings.DeleteAllPrefix | crawl/house/house.go:88-90 | A prefix in which no deleted string can start passes through unchanged, whatever follows it. |
| GoStrings.DeleteAllMatch | crawl/house/house.go:88-90 | When a deleted string is the first match at the start of the text, exactly that string is removed. This also holds for the three-character currency literal. |
| GoTime.DaysIn | crawl/house/house.go:147 | Month lengths are 28 to 31 days. The length is 29 exactly for February of a Gregorian leap year. |
| GoTime.ParseDate | crawl/house/house.go:147 | Only a real calendar day of a four-digit year is accepted. |
| GoTime.ParseFormat | crawl/house/house.go:147 | Every valid date, written as `DD-MM-YYYY`, parses back to itself. |
| GoTime.FormatParse | crawl/house/house.go:147 | Every accepted text is exactly the `DD-MM-YYYY` form of the date it denotes. Nothing else, such as extra text or one-digit fields, is accepted. |
| GoTime.ParseFields | crawl/house/house.go:147 | Zero-padded day, month and year fields parse exactly when they name a real day, and then give that day. |
| GoTime.LeapDay | crawl/house/house.go:147 | `29-02-YYYY` parses exactly when YYYY is a Gregorian leap year. |
| GoTime.AddDays | crawl/cache/house.go:49-50 | Adding a positive number of days moves the clock strictly forward. |
| Extractor.Message | crawl/house/house.go:22-28 | Every logged error message starts with its field's prefix constant (`id_error:`, `price_error:`, ...) and ends with the text that failed. |
| Extractor.IdFromPath | crawl/house/house.go:100-109 | The ID read fails with an `id_error:` iff the path has fewer than three `/`, that is fewer than four parts. A read ID never contains `/` and may be empty. |
| Extractor.IdFromJoinedPath | crawl/house/house.go:100-109 | For a path built from four or more `/`-free segments, the ID is the fourth segment. |
| Extractor.FirstToken | crawl/house/house.go:83 | The first space-separated token always exists. It is the space-free prefix of the text that runs up to the first space, or to the end of the text when there is none. |
| Extractor.PriceFromText | crawl/house/house.go:82-98 | The price fails with a `price_error:` iff the first token, with every `,` and currency literal deleted, is not an `Atoi` integer. A parsed price is below 2^64. |
| Extractor.PriceOfNumber | crawl/house/house.go:82-98 | A price text such as "1250 per month" yields its number. |
| Extractor.PriceOfItoa | crawl/house/house.go:82-98 | Every 64-bit number written in decimal and followed by a space is read as the price `uint(v)`, so negative numbers wrap. |
| Extractor.PriceWithThousands | crawl/house/house.go:88-90 | The thousands separator is deleted, so "1,250 per month" yields 1250. |
| Extractor.PriceWithCurrency | crawl/house/house.go:88-92 | The currency literal in front of a number is deleted, so the price reads as that number. |
| Extractor.LeadingSymbolRejected | crawl/house/house.go:88-92 | A first token that starts with a symbol that is neither deleted, a sign nor a digit makes the price fail. |
| Extractor.EuroSignNotDeleted | crawl/house/house.go:88 | The euro sign itself is not deleted by the replacer, so "€1,250 per month" fails to parse. |
| Extractor.NegativePriceWraps | crawl/house/house.go:90-95 | A negative first token such as "-5" is accepted, not rejected, and is stored wrapped as 2^64 - 5. |
| Extractor.AreaFromText | crawl/house/house.go:131-144 | The area fails with an `area_error:` iff the first token, with nothing stripped, is not an `Atoi` integer. |
| Extractor.AreaOfNumber | crawl/house/house.go:131-144 | An area text such as "85 m²" yields its number. |
| Extractor.AreaOfItoa | crawl/house/house.go:131-144 | Every 64-bit number written in decimal and followed by a space is read as the area `uint(v)`, so a negative area wraps to 2^64 - n. |
| Extractor.AreaSeparatorRejected | crawl/house/house.go:137 | Unlike the price, the area keeps its separators, so "1,200 m²" fails. |
| Extractor.AddressFromText | crawl/house/house.go:111-129 | The address fails with an `address_error:` iff the text has no `(`. The zip code is then a `(`-free prefix of the text. |
| Extractor.AddressFields | crawl/house/house.go:111-129 | The zip code is the text before the first `(` without its trailing spaces. The district is the text between the first and second `(` without its trailing `)`. |
| Extractor.AddressRoundTrip | crawl/house/house.go:111-129 | A label of the form "1017 AB (Centrum)" yields exactly its zip code and its district. |
| Extractor.OfferDateFromText | crawl/house/house.go:146-155 | The offer date fails with an `offerDate_error:` iff the text is not `DD-MM-YYYY`. A parsed date formats back to the same text. |
| Extractor.BuildFromElement | crawl/house/house.go:47-80 | Nothing is logged iff all five parsers succeed. `Interior` and `CrawledAt` are set iff nothing is logged, and are otherwise left as they were. An ID failure leaves the house untouched. The city is never changed. |
| Extractor.BuildStopsAtFirstFailure | crawl/house/house.go:55-75 | The first failing parser's error is what gets logged. Fields set by later steps keep their prior values. |
| Extractor.RenderedFieldsParse | crawl/house/house.go:82-155 | Each field of a rendered page reads back as the value it was rendered from: ID, price, zip code and district, area and offer date. |
| Extractor.ExtractRendered | crawl/house/house.go:47-155 | Extraction inverts rendering. Building a fresh house from a rendered page gives back every field except the city, which is never set, and the crawl time, which becomes `now`. |
| Cache.IsExist | crawl/cache/house.go:15-23 | The key exists iff the check succeeds and a live, non-empty set is stored. An error counts as absent. |
| Cache.GetHouses | crawl/cache/house.go:25-37 | The map's keys are exactly the live members, and every value is 1. A read error gives the nil map. |
| Cache.IdSet | crawl/cache/house.go:41-44 | The set of IDs is exactly the IDs of the given houses. |
| Cache.SetHouses | crawl/cache/house.go:39-53 | Live members are never removed, and nothing beyond the given IDs is added. When the key existed, the expiry is left as it was. |
| Cache.SetHousesIsUnion | crawl/cache/house.go:41-46 | Without faults, the members after the add are the live members together with every given ID. |
| Cache.ExpiryPolicy | crawl/cache/house.go:17-21 | When `SADD` and `EXPIREAT` succeed (no add or expire fault), the expiry becomes now + 5 days if the key was absent or the existence check failed and the set is now non-empty. When the key existed, the expiry is unchanged and still in the future. |
| Cache.EmptyAddKeepsAbsent | crawl/cache/house.go:45-51 | Adding no houses to an absent key leaves it absent, with no expiry. |
| Cache.SetHousesIdempotent | crawl/cache/house.go:45-51 | When every Redis call succeeds (`NoFaults`), repeating the add with the same houses before expiry changes neither the members nor the expiry. |
| Cache.ExpirySetOnce | crawl/cache/house.go:45-51 | When every Redis call succeeds (`NoFaults`), a first add to an absent key sets now + 5 days, and any later add before then keeps that expiry. |
| Crawl.NewHouses | crawl/crawl.go:45-56 | The kept houses are exactly the scraped houses whose ID is not a key of the cached map. |
| Crawl.NewHousesConcat | crawl/crawl.go:50-56 | The filter keeps scrape order: it distributes over concatenation. |
| Crawl.NoDedupWithinPass | crawl/crawl.go:50-56 | Two scraped houses with the same unseen ID are both kept. |
| Crawl.NilReadKeepsAll | crawl/crawl.go:47-56 | After a failed cache read, every scraped house is kept, including those with an empty ID. |
| Crawl.EmptyIdFilteredOnceCached | crawl/crawl.go:50-56 | Once `""` is cached, a house whose ID failed to parse is filtered out as already seen. |
| Crawl.AllCachedKeepsNone | crawl/crawl.go:52 | When every scraped ID is cached, nothing is kept. |
| Crawl.ScrapedIdsCovered | crawl/crawl.go:47-58 | Every scraped ID is either cached or the ID of a kept house. |
| Crawl.Crawl | crawl/crawl.go:18-62 | A setup failure of the logger, publisher or cache returns an error before the cache is read or written and before anything is published. Otherwise the pass publishes a batch drawn from the scraped houses and returns nil. |
| Crawl.CachedNeverPublished | crawl/crawl.go:47-56 | After a successful read, the published batch is exactly the new houses. No house cached at read time is published, and every scraped house not cached then is published. |
| Crawl.MembershipAfterPass | crawl/crawl.go:47-58 | Only new houses are written. When `SADD` succeeds (no add fault) and the cache does not expire during the pass, membership afterwards is the old membership together with the IDs of all scraped houses. |
| Crawl.FailedAddForgets | crawl/cache/house.go:45-46 | The result of `SADD` is ignored. When it fails, the pass records none of the published IDs, and the cache keeps only the members live at write time. |
| Crawl.ExpiryDuringScrape | crawl/crawl.go:47-58 | When every Redis call succeeds (`NoFaults`) and the cache expires while the page is being scraped, only the IDs of the published houses remain. |
| Crawl.SecondPassPublishesNothing | crawl/crawl.go:47-58 | A second pass over the same scraped houses publishes an empty batch, provided the first pass's `SADD` succeeded, the second runs before expiry, and its read succeeds. |
| Scraper.ListingUrl | crawl/scraper/scrap.go:72-79 | The configured URL is always a prefix of the listing URL. The listing URL equals the configured URL iff the page number is not positive. |
| Scraper.PageOfListingUrl | crawl/scraper/scrap.go:72-79 | The page number can be read back from every listing URL. A non-positive page number reads back as page 0. |
| Scraper.ListingUrlInjective | crawl/scraper/scrap.go:73-78 | Distinct positive page numbers give distinct listing URLs. |
| Scraper.AllowedDomains | crawl/scraper/scrap.go:33 | The allowed domains are the comma-free pieces of the configured list. Joined with `,` they give the configured value back. |
| Scraper.CollectDetails | crawl/scraper/scrap.go:57-61 | Each detail element contributes exactly one house, in order, even when its build stopped partway. A page whose ID failed gives the empty house. A house carries a crawl time iff every field parsed. |
| Scraper.FreshBuild | crawl/scraper/scrap.go:58-59 | A fresh house stays empty when its ID fails. It carries a crawl time exactly when every field parsed. |
| Scraper.ScrapHouses | crawl/scraper/scrap.go:37-44 | The result is nil, with no page visited, iff the limit rule cannot be set. Otherwise there is one house per detail page. |
| Crawler.SetIDFromURL | crawler/crawler.go:202-211 | Reports an `id_error:` iff the path has fewer than four parts. Only the setter's own copy receives the ID. |
| Crawler.SetPriceFromText | crawler/crawler.go:184-200 | Applies the same price rule as the crawl variant. Only the setter's own copy receives the price. |
| Crawler.SetAddressFromText | crawler/crawler.go:213-230 | Fails iff there is no `(`. Otherwise the bracketed part goes to the copy's `City`, and there is no district. |
| Crawler.SetAreaFromText | crawler/crawler.go:232-245 | Applies the same area rule as the crawl variant. Only the setter's own copy receives the area. |
| Crawler.SetOfferDateFromText | crawler/crawler.go:248-257 | Accepts only `DD-MM-YYYY` text. Only the setter's own copy receives the date. |
| Crawler.BuildFromElement | crawler/crawler.go:153-182 | A house is returned iff every setter succeeds. Any setter error ends the process through `log.Fatal`. |
| Crawler.ParsedFieldsLost | crawler/crawler.go:153-181 | The returned house has zero ID, price, area, address and offer date. It carries only the URL, the interior text and the crawl time. |
| Crawler.SetterCopyDiscarded | crawler/crawler.go:202-209 | The setter's copy does receive the parsed ID, yet the built house's ID stays empty. |
| Collect.FromMessage | collect/house/house.go:25-37 | Decoding succeeds iff the message holds a non-empty list, so `houses[0]` is always defined. |
| Collect.Writes | collect/collect.go:67-71 | Houses with an empty ID are never written. Every house with a non-empty ID is written to the document named by its ID, under the given city. |
| Collect.WritesConcat | collect/collect.go:67-71 | The writes keep list order. |
| Collect.EmptyIdsSkipped | collect/collect.go:67-71 | A batch of houses that all have an empty ID writes nothing. |
| Collect.Collect | collect/collect.go:24-81 | A missing project ID returns nil with no writes. A logger or store setup failure returns that error with no writes. A decode failure, an empty batch or a failed commit returns an error, and nothing is committed. A nil return means the commit succeeded and wrote something. |
| Collect.CommittedWrites | collect/collect.go:58-80 | With every client up and a non-empty list, the call succeeds iff some house has a non-empty ID. It commits one write per such house, all under the document of the first house's city. |
| Collect.EmptyBatchFails | collect/collect.go:67-76 | A batch in which every ID is empty commits nothing and returns an error. |

## Left out

- The Colly crawling machinery is not modelled: asynchronous collectors, the
  limit rule's parallelism and random delay, the `Wait` barriers, HTTP,
  cookies and the anchor-following list handler. The detail pages a pass
  reaches are an input list, so the order in which concurrent fetches
  complete becomes the order of that list.
- The unsynchronised `append` in the detail handler is a data race. It is
  not modelled, because the model is sequential.
- HTML selection is not modelled. A page is a record of the texts the CSS
  selectors would pick out: the URL path, the URL, and the price, address,
  area, offer-date and interior texts.
- The Redis, Pub/Sub, Firestore and Cloud Logging clients are abstract. Each
  call's success is a boolean input, and logging has no effect in the model.
  `crawl/cache/redis.go`, `crawl/publisher/client.go`,
  `crawl/publisher/publish.go`, `collect/store/store.go`,
  `collect/logger/logger.go` and `crawler/collect.go` are not part of this
  model.
- The one Firestore client rule the model does include is that
  `WriteBatch.Commit` refuses a batch with no writes. That rule belongs to
  the client library, not to this code. It is modelled as the `EmptyBatch`
  error, which every batch whose IDs are all empty gets.
- `CollectHousesOf` and `crawlHouses` in `crawler/crawler.go` are not part
  of this model. They are Pub/Sub transport and Colly setup.
- JSON encoding and decoding are not modelled. `collect` receives the
  decoded list, or a decode failure, as input. The model does not show that
  a wrapped price of 2^63 or more would fail to decode into the `int` field
  on the `collect` side.
- `collector/collector.go` is not part of this model. It is a dead variant.
- Wall-clock reads are not modelled: `time.Now` in the extractor and in
  `SetHouses` is a parameter. The coordinator takes two readings, one when
  the cache is read and one when it is written.
- GoTime.AddDays: `AddDate(0, 0, 5)` is modelled as adding 5 × 86400
  seconds to an abstract clock. Time zones and daylight-saving shifts are
  ignored.
- Cache.Observe: a key counts as expired once the clock has passed its
  expiry instant. This follows Redis, which expires a key when `now > when`.
  Millisecond resolution is not modelled.
- Extractor.Message: Go's own error causes (the wording from `strconv` and
  `time`, and the part counts in the extractor's messages) are abstracted to
  the text that failed. Only the prefix constant and the `": "` separator
  are modelled exactly.
- Strings are sequences of code points. Byte-level behaviour on invalid
  UTF-8 is not modelled.
- What `collect` does when the first house's city is empty depends on the
  Firestore client, and is not modelled. This is the usual case, not a
  corner: the crawl extractor never sets `City`, so every batch that
  `collect` receives from `crawl` has an empty city.
- Whether `Publish` succeeds is not modelled beyond the batch handed to it,
  because its outcome is only logged and the pass returns nil either way.

=== FILE: cache.dfy ===
/**
 * The dedup cache: one Redis set under the key "HOUSES" holding the IDs of the
 * houses already published, with one absolute expiry for the whole set.
 * Redis is modelled as a value (`Store`) observed through a clock reading;
 * the key exists exactly when its member set is non-empty, as in Redis, where
 * an empty set is no key at all.
 */
module Cache {
  import opened Wrappers
  import opened GoTime
  import opened Extractor

  const HousesKey: string := "HOUSES"

  /** Days between the first write of the set and its expiry. */
  const HorizonDays: int := 5

  /** The value stored under `HousesKey`: its members and its optional absolute expiry. */
  datatype Store = Store(members: set<string>, expiry: Option<Instant>)

  /** No key at all. */
  const Absent: Store := Store({}, None)

  predicate Expired(s: Store, now: Instant) {
    s.expiry.Some? && s.expiry.value < now
  }

  /**
   * The key as Redis presents it at `now`: an expired key is gone together
   * with its expiry, and an empty set is no key.
   */
  function Observe(s: Store, now: Instant): (r: Store)
    ensures r.members == {} ==> r == Absent
    ensures r.members <= s.members
    ensures !Expired(s, now) ==> r.members == s.members
  {
    if s.members == {} || Expired(s, now) then Absent else s
  }

  /** Failures reported by the Redis calls of one pass (network or server errors). */
  datatype Faults = Faults(existsFails: bool, readFails: bool, addFails: bool, expireFails: bool)

  const NoFaults: Faults := Faults(false, false, false, false)

  /** `isExist`: `EXISTS HOUSES`, where an error counts as "absent". */
  function IsExist(s: Store, now: Instant, fails: bool): (r: bool)
    ensures r <==> !fails && Observe(s, now) != Absent
  {
    if fails then false else Observe(s, now).members != {}
  }

  /**
   * `GetHouses`: `SMEMBERS HOUSES` turned into a map from every member to 1;
   * a read error gives Go's nil map (`None`).
   */
  function GetHouses(s: Store, now: Instant, fails: bool): (r: Option<map<string, int>>)
    ensures r.None? <==> fails
    ensures r.Some? ==> r.value.Keys == Observe(s, now).members
    ensures r.Some? ==> forall id | id in r.value :: r.value[id] == 1
  {
    if fails then None else Some(map id | id in Observe(s, now).members :: 1)
  }

  /** `_, ok := m[id]`; looking up a nil map finds nothing. */
  predicate Cached(m: Option<map<string, int>>, id: string) {
    m.Some? && id in m.value
  }

  /** The IDs of a list of houses. */
  function IdSet(houses: seq<House>): (ids: set<string>)
    ensures forall i | 0 <= i < |houses| :: houses[i].id in ids
    ensures forall id | id in ids :: exists i | 0 <= i < |houses| :: houses[i].id == id
  {
    set i | 0 <= i < |houses| :: houses[i].id
  }

  /**
   * `SetHouses`: check whether the key exists, `SADD` every house ID, and,
   * only when the key did not exist before the add, `EXPIREAT` now + 5 days.
   * `EXPIREAT` on a key that is still absent (nothing was added) does nothing.
   */
  function SetHouses(s: Store, houses: seq<House>, now: Instant, faults: Faults): (r: Store)
    ensures Observe(s, now).members <= r.members
    ensures r.members <= Observe(s, now).members + IdSet(houses)
    ensures IsExist(s, now, faults.existsFails) ==> r.expiry == s.expiry
    ensures r.members == {} ==> r == Absent
  {
    var existed := IsExist(s, now, faults.existsFails);
    var before := Observe(s, now);
    var added := if faults.addFails then before else before.(members := before.members + IdSet(houses));
    if !existed && !faults.expireFails && added.members != {}
    then added.(expiry := Some(AddDays(now, HorizonDays)))
    else added
  }

  /** Without faults the add is a union: existing members are never removed. */
  lemma SetHousesIsUnion(s: Store, houses: seq<House>, now: Instant, faults: Faults)
    requires !faults.addFails
    ensures SetHouses(s, houses, now, faults).members == Observe(s, now).members + IdSet(houses)
  {
  }

  /**
   * The expiry is set to now + 5 days exactly when the key was absent (or its
   * existence check failed) and the add left a non-empty set; otherwise it is
   * whatever the key already had.
   */
  lemma ExpiryPolicy(s: Store, houses: seq<House>, now: Instant, faults: Faults)
    requires !faults.addFails && !faults.expireFails
    ensures var r := SetHouses(s, houses, now, faults);
      && (!IsExist(s, now, faults.existsFails) && r.members != {} ==> r.expiry == Some(now + HorizonDays * SecondsPerDay))
      && (IsExist(s, now, faults.existsFails) ==> r.expiry == s.expiry && !Expired(r, now))
      && (faults.existsFails && r.members != {} ==> r.expiry == Some(now + HorizonDays * SecondsPerDay))
  {
  }

  /** An add of no houses to an absent key leaves it absent. */
  lemma EmptyAddKeepsAbsent(now: Instant, faults: Faults)
    ensures SetHouses(Absent, [], now, faults) == Absent
  {
    assert IdSet([]) == {};
  }

  /**
   * Repeating `SetHouses` with the same houses before the key expires changes
   * nothing: neither the members nor the expiry.
   */
  lemma SetHousesIdempotent(s: Store, houses: seq<House>, t1: Instant, t2: Instant)
    requires t1 <= t2
    requires !Expired(SetHouses(s, houses, t1, NoFaults), t2)
    ensures var r := SetHouses(s, houses, t1, NoFaults);
      SetHouses(r, houses, t2, NoFaults) == r
  {
    var r := SetHouses(s, houses, t1, NoFaults);
    if r.members != {} {
      assert IsExist(r, t2, false);
    }
  }

  /**
   * The expiry is set once: a first add to an absent key sets now + 5 days,
   * and a later add before that moment, whatever it adds, keeps it.
   */
  lemma ExpirySetOnce(first: seq<House>, later: seq<House>, t1: Instant, t2: Instant)
    requires |first| > 0
    requires t1 <= t2 <= AddDays(t1, HorizonDays)
    ensures var s1 := SetHouses(Absent, first, t1, NoFaults);
      && s1.expiry == Some(AddDays(t1, HorizonDays))
      && SetHouses(s1, later, t2, NoFaults).expiry == s1.expiry
  {
    var s1 := SetHouses(Absent, first, t1, NoFaults);
    assert first[0].id in s1.members;
    assert IsExist(s1, t2, false);
  }
}

=== FILE: collect.dfy ===
/**
 * The `collect` function: it receives a published batch of houses and writes
 * them into one Firestore batch under the document of the first house's city,
 * skipping houses with an empty ID. JSON decoding and the Firestore client
 * are abstract: the decoded list and each client's success are inputs.
 */
module Collect {
  import opened Wrappers
  import opened Extractor

  /** The configuration `Collect` reads from the environment. */
  datatype Env = Env(projectId: string, collection: string, subcollection: string)

  /** Whether each external step succeeded. */
  datatype Backends = Backends(loggerOk: bool, storeOk: bool, commitOk: bool)

  /** `EmptyBatch` is the Firestore client's refusal to commit a batch holding no write. */
  datatype CollectError = LoggerSetupFailed | StoreSetupFailed | DecodeFailed | NoHouses | EmptyBatch | CommitFailed

  /** One `batch.Set`: the document collection/city/subcollection/docId receives `house`. */
  datatype Write = Write(collection: string, city: string, subcollection: string, docId: string, house: House)

  /** What a call does: the error it returns (`None` is nil) and the writes that were committed. */
  datatype Collected = Collected(returned: Option<CollectError>, committed: seq<Write>)

  /**
   * `house.FromMessage`: `decoded` is the outcome of `json.Unmarshal`
   * (`None` for a decode error); an empty list is rejected too.
   */
  function FromMessage(decoded: Option<seq<House>>): (r: Result<seq<House>, CollectError>)
    ensures r.Ok? <==> decoded.Some? && |decoded.value| >= 1
    ensures r.Ok? ==> r.value == decoded.value
  {
    match decoded
    case None => Err(DecodeFailed)
    case Some(houses) => if |houses| < 1 then Err(NoHouses) else Ok(houses)
  }

  /** The write loop: every house with a non-empty ID, as a document named by that ID. */
  function Writes(env: Env, city: string, houses: seq<House>): (ws: seq<Write>)
    ensures |ws| <= |houses|
    ensures forall j | 0 <= j < |ws| :: ws[j].docId != "" && ws[j].docId == ws[j].house.id && ws[j].house in houses
    ensures forall j | 0 <= j < |ws| :: ws[j].collection == env.collection && ws[j].city == city && ws[j].subcollection == env.subcollection
    ensures forall i | 0 <= i < |houses| && houses[i].id != "" ::
      Write(env.collection, city, env.subcollection, houses[i].id, houses[i]) in ws
    decreases |houses|
  {
    if |houses| == 0 then []
    else
      var rest := Writes(env, city, houses[1..]);
      if houses[0].id != "" then [Write(env.collection, city, env.subcollection, houses[0].id, houses[0])] + rest
      else rest
  }

  /**
   * `Collect`: without a project ID it returns nil and does nothing; a client
   * setup failure, a decode failure or a failed commit is returned as an
   * error with nothing committed. A batch without writes (every ID empty) is
   * refused by the client's `Commit`, so it fails too.
   */
  function Collect(env: Env, backends: Backends, decoded: Option<seq<House>>): (c: Collected)
    ensures env.projectId == "" ==> c == Collected(None, [])
    ensures env.projectId != "" && !backends.loggerOk ==> c == Collected(Some(LoggerSetupFailed), [])
    ensures env.projectId != "" && backends.loggerOk && !backends.storeOk ==> c == Collected(Some(StoreSetupFailed), [])
    ensures c.committed != [] ==> c.returned.None?
    ensures FromMessage(decoded).Err? ==> c.committed == []
    ensures c.returned.None? && env.projectId != "" ==> backends.commitOk && FromMessage(decoded).Ok? && c.committed != []
  {
    if env.projectId == "" then Collected(None, [])
    else if !backends.loggerOk then Collected(Some(LoggerSetupFailed), [])
    else if !backends.storeOk then Collected(Some(StoreSetupFailed), [])
    else
      match FromMessage(decoded)
      case Err(e) => Collected(Some(e), [])
      case Ok(houses) =>
        var city := houses[0].address.city;
        var ws := Writes(env, city, houses);
        if ws == [] then Collected(Some(EmptyBatch), [])
        else if !backends.commitOk then Collected(Some(CommitFailed), [])
        else Collected(None, ws)
  }

  /** The writes keep list order and split over concatenation. */
  lemma {:induction false} WritesConcat(env: Env, city: string, a: seq<House>, b: seq<House>)
    ensures Writes(env, city, a + b) == Writes(env, city, a) + Writes(env, city, b)
    decreases |a|
  {
    if |a| == 0 {
      assert a + b == b;
    } else {
      assert (a + b)[0] == a[0];
      assert (a + b)[1..] == a[1..] + b;
      WritesConcat(env, city, a[1..], b);
    }
  }

  /** Houses with an empty ID contribute no write at all. */
  lemma {:induction false} EmptyIdsSkipped(env: Env, city: string, houses: seq<House>)
    requires forall i | 0 <= i < |houses| :: houses[i].id == ""
    ensures Writes(env, city, houses) == []
    decreases |houses|
  {
    if |houses| > 0 {
      EmptyIdsSkipped(env, city, houses[1..]);
    }
  }

  /**
   * With every client up and a non-empty list decoded, the call succeeds
   * exactly when there is something to write, and then commits one write per
   * house with a non-empty ID, every one of them under the first house's city.
   */
  lemma CommittedWrites(env: Env, backends: Backends, decoded: Option<seq<House>>)
    requires env.projectId != "" && backends.loggerOk && backends.storeOk && backends.commitOk
    requires decoded.Some? && |decoded.value| >= 1
    ensures var c := Collect(env, backends, decoded);
      && (c.returned.None? <==> exists i | 0 <= i < |decoded.value| :: decoded.value[i].id != "")
      && c.committed == Writes(env, decoded.value[0].address.city, decoded.value)
      && forall w | w in c.committed :: w.city == decoded.value[0].address.city && w.docId != ""
  {
    var houses := decoded.value;
    var ws := Writes(env, houses[0].address.city, houses);
    if exists i | 0 <= i < |houses| :: houses[i].id != "" {
      var i :| 0 <= i < |houses| && houses[i].id != "";
      assert Write(env.collection, houses[0].address.city, env.subcollection, houses[i].id, houses[i]) in ws;
    } else {
      EmptyIdsSkipped(env, houses[0].address.city, houses);
    }
  }

  /** A batch in which every ID is empty commits nothing and comes back as an error. */
  lemma EmptyBatchFails(env: Env, backends: Backends, houses: seq<House>)
    requires env.projectId != "" && backends.loggerOk && backends.storeOk
    requires |houses| >= 1 && forall i | 0 <= i < |houses| :: houses[i].id == ""
    ensures Collect(env, backends, Some(houses)) == Collected(Some(EmptyBatch), [])
  {
    EmptyIdsSkipped(env, houses[0].address.city, houses);
  }
}

=== FILE: crawl.dfy ===
/**
 * The coordinator pass `Crawl`: set up the logger, publisher and cache
 * clients, read the cached IDs, scrape the first listing page, keep the
 * scraped houses whose ID is not cached, add their IDs to the cache and
 * publish them. The scrape result and the clock readings are inputs.
 */
module Crawl {
  import opened Wrappers
  import opened GoTime
  import opened Extractor
  import opened Cache

  /** Which client failed to start; each is returned as `Crawl`'s error. */
  datatype SetupError = LoggerSetupFailed | PublisherSetupFailed | CacheSetupFailed

  /** Whether each client started (`logger.New`, `publisher.New`, `cache.NewClient`). */
  datatype Setup = Setup(loggerOk: bool, publisherOk: bool, cacheOk: bool)

  /**
   * What one pass does: the error it returns (`None` is Go's nil), the batch
   * handed to `publisher.Publish` (`None` when publishing was never reached)
   * and the cache it leaves behind.
   */
  datatype Pass = Pass(returned: Option<SetupError>, published: Option<seq<House>>, store: Store)

  /** The filter loop of `Crawl`: scraped houses whose ID is not a key of the cached map, in scrape order. */
  function NewHouses(cached: Option<map<string, int>>, scraped: seq<House>): (unseen: seq<House>)
    ensures |unseen| <= |scraped|
    ensures forall j | 0 <= j < |unseen| :: unseen[j] in scraped && !Cached(cached, unseen[j].id)
    ensures forall i | 0 <= i < |scraped| && !Cached(cached, scraped[i].id) :: scraped[i] in unseen
    decreases |scraped|
  {
    if |scraped| == 0 then []
    else
      var rest := NewHouses(cached, scraped[1..]);
      if Cached(cached, scraped[0].id) then rest else [scraped[0]] + rest
  }

  /**
   * `Crawl`: a setup failure returns before the cache is read or anything is
   * scraped; otherwise the pass returns nil after publishing, whatever the
   * publish outcome. `readAt` and `writeAt` are the clock when the cache is
   * read and when it is written; scraping happens in between.
   */
  function Crawl(setup: Setup, store: Store, scraped: seq<House>,
                 readAt: Instant, writeAt: Instant, faults: Faults): (p: Pass)
    requires readAt <= writeAt
    ensures p.returned.Some? <==> !(setup.loggerOk && setup.publisherOk && setup.cacheOk)
    ensures p.returned.Some? ==> p.published.None? && p.store == store
    ensures p.returned.None? ==> p.published.Some?
    ensures p.published.Some? ==> forall h | h in p.published.value :: h in scraped
  {
    if !setup.loggerOk then Pass(Some(LoggerSetupFailed), None, store)
    else if !setup.publisherOk then Pass(Some(PublisherSetupFailed), None, store)
    else if !setup.cacheOk then Pass(Some(CacheSetupFailed), None, store)
    else
      var cached := GetHouses(store, readAt, faults.readFails);
      var unseen := NewHouses(cached, scraped);
      Pass(None, Some(unseen), SetHouses(store, unseen, writeAt, faults))
  }

  predicate SetupOk(setup: Setup) {
    setup.loggerOk && setup.publisherOk && setup.cacheOk
  }

  /** The filter keeps scrape order: it distributes over concatenation. */
  lemma {:induction false} NewHousesConcat(cached: Option<map<string, int>>, a: seq<House>, b: seq<House>)
    ensures NewHouses(cached, a + b) == NewHouses(cached, a) + NewHouses(cached, b)
    decreases |a|
  {
    if |a| == 0 {
      assert a + b == b;
    } else {
      assert (a + b)[0] == a[0];
      assert (a + b)[1..] == a[1..] + b;
      NewHousesConcat(cached, a[1..], b);
    }
  }

  /** There is no dedup within a pass: two scraped houses with the same unseen ID are both kept. */
  lemma NoDedupWithinPass(cached: Option<map<string, int>>, h1: House, h2: House)
    requires h1.id == h2.id && !Cached(cached, h1.id)
    ensures NewHouses(cached, [h1, h2]) == [h1, h2]
  {
    assert [h1, h2][1..] == [h2];
  }

  /** After a nil read every scraped house is kept, including those whose ID is empty. */
  lemma NilReadKeepsAll(scraped: seq<House>)
    ensures NewHouses(None, scraped) == scraped
  {
    NilReadKeepsAllRec(scraped);
  }

  lemma {:induction false} NilReadKeepsAllRec(scraped: seq<House>)
    ensures NewHouses(None, scraped) == scraped
    decreases |scraped|
  {
    if |scraped| > 0 {
      NilReadKeepsAllRec(scraped[1..]);
      assert [scraped[0]] + scraped[1..] == scraped;
    }
  }

  /** When every scraped ID is cached nothing is kept. */
  lemma {:induction false} AllCachedKeepsNone(cached: Option<map<string, int>>, scraped: seq<House>)
    requires forall i | 0 <= i < |scraped| :: Cached(cached, scraped[i].id)
    ensures NewHouses(cached, scraped) == []
    decreases |scraped|
  {
    if |scraped| > 0 {
      AllCachedKeepsNone(cached, scraped[1..]);
    }
  }

  /** Every scraped ID is either cached or the ID of a kept house. */
  lemma ScrapedIdsCovered(cached: Option<map<string, int>>, scraped: seq<House>)
    requires cached.Some?
    ensures IdSet(scraped) <= cached.value.Keys + IdSet(NewHouses(cached, scraped))
  {
    forall id | id in IdSet(scraped)
      ensures id in cached.value.Keys + IdSet(NewHouses(cached, scraped))
    {
      var i :| 0 <= i < |scraped| && scraped[i].id == id;
      if id !in cached.value {
        assert scraped[i] in NewHouses(cached, scraped);
      }
    }
  }

  /**
   * After a successful read, the published batch is exactly the new houses:
   * no house whose ID was cached at read time is published, and every
   * scraped house whose ID was not cached is.
   */
  lemma CachedNeverPublished(setup: Setup, store: Store, scraped: seq<House>,
                             readAt: Instant, writeAt: Instant, faults: Faults)
    requires readAt <= writeAt && SetupOk(setup) && !faults.readFails
    ensures var p := Crawl(setup, store, scraped, readAt, writeAt, faults);
      && (forall h | h in p.published.value :: h.id !in Observe(store, readAt).members)
      && (forall h | h in scraped && h.id !in Observe(store, readAt).members :: h in p.published.value)
  {
  }

  /**
   * A house whose ID failed to parse carries the empty ID. Once one such
   * house has been written, `""` is cached, and later ones are filtered out
   * until the set expires.
   */
  lemma EmptyIdFilteredOnceCached(cached: Option<map<string, int>>, h: House)
    requires h.id == "" && Cached(cached, "")
    ensures NewHouses(cached, [h]) == []
  {
  }

  /**
   * Only new houses are written, yet when the cache does not expire during
   * the pass its membership afterwards is the old membership together with
   * the IDs of every scraped house.
   */
  lemma MembershipAfterPass(setup: Setup, store: Store, scraped: seq<House>,
                            readAt: Instant, writeAt: Instant, faults: Faults)
    requires readAt <= writeAt && SetupOk(setup) && !faults.addFails
    requires !Expired(store, writeAt)
    ensures Crawl(setup, store, scraped, readAt, writeAt, faults).store.members
            == Observe(store, readAt).members + IdSet(scraped)
  {
    var cached := GetHouses(store, readAt, faults.readFails);
    var unseen := NewHouses(cached, scraped);
    assert Observe(store, readAt) == Observe(store, writeAt);
    SetHousesIsUnion(store, unseen, writeAt, faults);
    if faults.readFails {
      NilReadKeepsAll(scraped);
    } else {
      ScrapedIdsCovered(cached, scraped);
    }
  }

  /**
   * The results of `SADD` are ignored: when the add fails, the published IDs
   * are not recorded, and the cache keeps only the members live at write time.
   */
  lemma FailedAddForgets(setup: Setup, store: Store, scraped: seq<House>,
                         readAt: Instant, writeAt: Instant, faults: Faults)
    requires readAt <= writeAt && SetupOk(setup) && faults.addFails
    ensures Crawl(setup, store, scraped, readAt, writeAt, faults).store.members
            == Observe(store, writeAt).members
  {
  }

  /**
   * If the cache expires while the page is being scraped, the old members are
   * lost: afterwards only the IDs of the houses judged new remain.
   */
  lemma ExpiryDuringScrape(setup: Setup, store: Store, scraped: seq<House>,
                           readAt: Instant, writeAt: Instant)
    requires readAt <= writeAt && SetupOk(setup)
    requires Expired(store, writeAt)
    ensures var p := Crawl(setup, store, scraped, readAt, writeAt, NoFaults);
      p.store.members == IdSet(p.published.value)
  {
  }

  /**
   * Running the pass a second time over the same scraped houses, before the
   * cache expires and with a successful read, publishes nothing.
   */
  lemma SecondPassPublishesNothing(setup: Setup, store: Store, scraped: seq<House>,
                                   r1: Instant, w1: Instant, r2: Instant, w2: Instant,
                                   f1: Faults, f2: Faults)
    requires r1 <= w1 && r2 <= w2 && SetupOk(setup)
    requires !f1.addFails && !f2.readFails
    requires !Expired(store, w1)
    requires !Expired(Crawl(setup, store, scraped, r1, w1, f1).store, r2)
    ensures var p1 := Crawl(setup, store, scraped, r1, w1, f1);
      Crawl(setup, p1.store, scraped, r2, w2, f2).published == Some([])
  {
    var p1 := Crawl(setup, store, scraped, r1, w1, f1);
    MembershipAfterPass(setup, store, scraped, r1, w1, f1);
    var cached := GetHouses(p1.store, r2, false);
    assert IdSet(scraped) <= Observe(p1.store, r2).members;
    AllCachedKeepsNone(cached, scraped);
  }
}

=== FILE: crawler.dfy ===
/**
 * The older extractor variant of the `crawler` package. It uses the same five
 * parsers as the crawl pipeline, except that the bracketed part of the
 * address goes to `City` and there is no district. Its `BuildFromElement`
 * and all five setters have value receivers: each setter assigns to its own
 * copy of the house, so none of the parsed fields reaches the result.
 * Any setter error ends the process through `log.Fatal`.
 */
module Crawler {
  import opened Wrappers
  import opened GoTime
  import opened Extractor

  datatype LegacyAddress = LegacyAddress(city: string, zipCode: string)

  datatype LegacyHouse = LegacyHouse(
    id: string,
    url: string,
    price: nat,
    area: nat,
    address: LegacyAddress,
    interior: string,
    offeredAt: Option<Date>,
    crawledAt: Option<Instant>)

  /** `House{}`. */
  const ZeroHouse: LegacyHouse := LegacyHouse("", "", 0, 0, LegacyAddress("", ""), "", None, None)

  /** What a value-receiver setter leaves behind: its own modified copy, and its error. */
  datatype SetterResult = SetterResult(copy: LegacyHouse, err: Option<FieldError>)

  function SetIDFromURL(h: LegacyHouse, path: string): (r: SetterResult)
    ensures r.err.Some? <==> IdFromPath(path).Err?
    ensures r.err.None? ==> r.copy.id == IdFromPath(path).value
  {
    match IdFromPath(path)
    case Err(e) => SetterResult(h, Some(e))
    case Ok(id) => SetterResult(h.(id := id), None)
  }

  function SetPriceFromText(h: LegacyHouse, text: string): (r: SetterResult)
    ensures r.err.Some? <==> PriceFromText(text).Err?
    ensures r.err.None? ==> r.copy.price == PriceFromText(text).value
  {
    match PriceFromText(text)
    case Err(e) => SetterResult(h, Some(e))
    case Ok(price) => SetterResult(h.(price := price), None)
  }

  /** The bracketed part becomes the city. */
  function SetAddressFromText(h: LegacyHouse, text: string): (r: SetterResult)
    ensures r.err.Some? <==> '(' !in text
    ensures r.err.None? ==> r.copy.address.zipCode == AddressFromText(text).value.zipCode
    ensures r.err.None? ==> r.copy.address.city == AddressFromText(text).value.bracketed
  {
    match AddressFromText(text)
    case Err(e) => SetterResult(h, Some(e))
    case Ok(parts) => SetterResult(h.(address := LegacyAddress(parts.bracketed, parts.zipCode)), None)
  }

  function SetAreaFromText(h: LegacyHouse, text: string): (r: SetterResult)
    ensures r.err.Some? <==> AreaFromText(text).Err?
    ensures r.err.None? ==> r.copy.area == AreaFromText(text).value
  {
    match AreaFromText(text)
    case Err(e) => SetterResult(h, Some(e))
    case Ok(area) => SetterResult(h.(area := area), None)
  }

  function SetOfferDateFromText(h: LegacyHouse, text: string): (r: SetterResult)
    ensures r.err.Some? <==> ParseDate(text).None?
    ensures r.err.None? ==> r.copy.offeredAt == ParseDate(text)
  {
    match OfferDateFromText(text)
    case Err(e) => SetterResult(h, Some(e))
    case Ok(date) => SetterResult(h.(offeredAt := Some(date)), None)
  }

  /**
   * `House.BuildFromElement` (value receiver): `Err` is the error passed to
   * `log.Fatal`, which ends the process, so no house is returned. On success
   * the returned house is the receiver with only `URL`, `Interior` and
   * `CrawledAt` changed.
   */
  function BuildFromElement(h: LegacyHouse, page: Page, now: Instant): (r: Result<LegacyHouse, FieldError>)
    ensures r.Ok? <==> AllFieldsParse(page)
  {
    var s1 := SetIDFromURL(h, page.path);
    if s1.err.Some? then Err(s1.err.value) else
    var h1 := h.(url := page.url);
    var s2 := SetPriceFromText(h1, page.priceText);
    if s2.err.Some? then Err(s2.err.value) else
    var s3 := SetAddressFromText(h1, page.addressText);
    if s3.err.Some? then Err(s3.err.value) else
    var s4 := SetAreaFromText(h1, page.areaText);
    if s4.err.Some? then Err(s4.err.value) else
    var s5 := SetOfferDateFromText(h1, page.offerDateText);
    if s5.err.Some? then Err(s5.err.value) else
    Ok(h1.(interior := page.interiorText, crawledAt := Some(now)))
  }

  /**
   * Every parsed field is lost: a house built from `House{}` has a zero ID,
   * price, area, address and offer date, and carries only the URL, the
   * interior text and the crawl time.
   */
  lemma ParsedFieldsLost(page: Page, now: Instant)
    requires AllFieldsParse(page)
    ensures BuildFromElement(ZeroHouse, page, now)
            == Ok(ZeroHouse.(url := page.url, interior := page.interiorText, crawledAt := Some(now)))
  {
  }

  /**
   * The loss is not in the parsing: on the same page the setter's own copy
   * does receive the ID, yet the built house's ID stays empty.
   */
  lemma SetterCopyDiscarded(page: Page, now: Instant)
    requires AllFieldsParse(page)
    ensures SetIDFromURL(ZeroHouse, page.path).copy.id == IdFromPath(page.path).value
    ensures BuildFromElement(ZeroHouse, page, now).value.id == ""
  {
  }
}

=== FILE: decimal.dfy ===
/**
 * Decimal integer text as Go's `strconv` package reads and writes it:
 * `strconv.Atoi` (optional sign, at least one decimal digit, 64-bit range),
 * `strconv.Itoa`, and the `uint(...)` conversion of a 64-bit `int`.
 */
module Decimal {
  import opened Wrappers

  const MinInt64: int := -0x8000_0000_0000_0000
  const MaxInt64: int := 0x7FFF_FFFF_FFFF_FFFF
  /** Number of values of a Go `uint` (64 bits wide on the deployment target). */
  const TwoTo64: int := 0x1_0000_0000_0000_0000

  predicate InInt64(v: int) {
    MinInt64 <= v <= MaxInt64
  }

  predicate IsDigit(c: char) {
    '0' <= c <= '9'
  }

  predicate AllDigits(s: string) {
    forall i | 0 <= i < |s| :: IsDigit(s[i])
  }

  lemma DigitsExclude(s: string, c: char)
    requires AllDigits(s) && !IsDigit(c)
    ensures c !in s
  {
  }

  function DigitValue(c: char): nat
    requires IsDigit(c)
  {
    (c as int) - ('0' as int)
  }

  function DigitChar(d: nat): (c: char)
    requires d < 10
    ensures IsDigit(c) && DigitValue(c) == d
  {
    (('0' as int) + d) as char
  }

  /** The number a non-empty run of decimal digits denotes, most significant digit first. */
  function DigitsValue(s: string): nat
    requires AllDigits(s)
    decreases |s|
  {
    if |s| == 0 then 0 else DigitsValue(s[..|s| - 1]) * 10 + DigitValue(s[|s| - 1])
  }

  /** Shortest decimal text of a natural number (no leading zeros). */
  function NatText(n: nat): (s: string)
    ensures 1 <= |s| && AllDigits(s)
    ensures 1 < |s| ==> s[0] != '0'
    decreases n
  {
    if n < 10 then [DigitChar(n)] else NatText(n / 10) + [DigitChar(n % 10)]
  }

  /** `strconv.Itoa`. */
  function Itoa(v: int): (s: string)
    ensures 1 <= |s|
    ensures (s[0] == '-') <==> v < 0
  {
    if v < 0 then "-" + NatText(-v) else NatText(v)
  }

  /** The text after an optional leading `+` or `-`. */
  function Unsigned(s: string): (u: string)
    ensures u == s || (|s| > 0 && u == s[1..] && (s[0] == '+' || s[0] == '-'))
  {
    if |s| > 0 && (s[0] == '-' || s[0] == '+') then s[1..] else s
  }

  /**
   * `strconv.Atoi`: an optional sign followed by at least one decimal digit,
   * and nothing else; the value must fit a 64-bit `int`, otherwise Go reports
   * a range error. `None` stands for both syntax and range errors.
   */
  function Atoi(s: string): (r: Option<int>)
    ensures r.Some? ==> InInt64(r.value)
    ensures r.Some? ==> 1 <= |Unsigned(s)| && AllDigits(Unsigned(s))
    ensures r.Some? ==> (r.value < 0 ==> s[0] == '-')
  {
    var u := Unsigned(s);
    if |u| == 0 || !AllDigits(u) then None
    else
      var magnitude: int := DigitsValue(u);
      var v := if s[0] == '-' then -magnitude else magnitude;
      if InInt64(v) then Some(v) else None
  }

  /** Go's `uint(v)` for a 64-bit `int`: reinterpretation modulo 2^64. */
  function ToUint(v: int): (r: nat)
    requires InInt64(v)
    ensures r < TwoTo64
    ensures (r - v) % TwoTo64 == 0
  {
    if v < 0 then v + TwoTo64 else v
  }

  lemma {:induction false} NatTextValue(n: nat)
    ensures DigitsValue(NatText(n)) == n
    decreases n
  {
    if n >= 10 {
      var s := NatText(n);
      assert s[..|s| - 1] == NatText(n / 10);
      NatTextValue(n / 10);
    }
  }

  /** `n` as exactly `width` decimal digits, zero-padded on the left. */
  function Padded(n: nat, width: nat): (s: string)
    ensures |s| == width && AllDigits(s)
    decreases width
  {
    if width == 0 then "" else Padded(n / 10, width - 1) + [DigitChar(n % 10)]
  }

  function Pow10(k: nat): (p: nat)
    ensures p >= 1
  {
    if k == 0 then 1 else 10 * Pow10(k - 1)
  }

  /** A run of `k` digits denotes a number below 10^k. */
  lemma {:induction false} DigitsBound(s: string)
    requires AllDigits(s)
    ensures DigitsValue(s) < Pow10(|s|)
    decreases |s|
  {
    if |s| > 0 {
      DigitsBound(s[..|s| - 1]);
    }
  }

  lemma {:induction false} PaddedValue(n: nat, width: nat)
    requires n < Pow10(width)
    ensures DigitsValue(Padded(n, width)) == n
    decreases width
  {
    if width > 0 {
      var s := Padded(n, width);
      assert s[..|s| - 1] == Padded(n / 10, width - 1);
      assert n / 10 < Pow10(width - 1) by {
        assert n == 10 * (n / 10) + n % 10;
      }
      PaddedValue(n / 10, width - 1);
    }
  }

  lemma {:induction false} PaddedOfDigits(s: string)
    requires AllDigits(s)
    ensures Padded(DigitsValue(s), |s|) == s
    decreases |s|
  {
    if |s| > 0 {
      var init := s[..|s| - 1];
      PaddedOfDigits(init);
      var v := DigitsValue(s);
      assert v / 10 == DigitsValue(init);
      assert v % 10 == DigitValue(s[|s| - 1]);
      assert init + [s[|s| - 1]] == s;
    }
  }

  /** Two digit runs side by side denote the first shifted left past the second. */
  lemma {:induction false} DigitsConcat(x: string, y: string)
    requires AllDigits(x) && AllDigits(y)
    ensures AllDigits(x + y)
    ensures DigitsValue(x + y) == DigitsValue(x) * Pow10(|y|) + DigitsValue(y)
    decreases |y|
  {
    if |y| == 0 {
      assert x + y == x;
    } else {
      var y' := y[..|y| - 1];
      var d := DigitValue(y[|y| - 1]);
      assert (x + y)[..|x + y| - 1] == x + y';
      assert (x + y)[|x + y| - 1] == y[|y| - 1];
      DigitsConcat(x, y');
      assert DigitsValue(x + y) == DigitsValue(x + y') * 10 + d;
      assert DigitsValue(y) == DigitsValue(y') * 10 + d;
      assert Pow10(|y|) == 10 * Pow10(|y'|);
      ShiftStep(DigitsValue(x), Pow10(|y'|), DigitsValue(y'), d);
    }
  }

  lemma ShiftStep(a: int, p: int, b: int, d: int)
    ensures (a * p + b) * 10 + d == a * (10 * p) + (b * 10 + d)
  {
  }

  /** `strconv.Atoi` reads back every value `strconv.Itoa` writes. */
  lemma AtoiItoa(v: int)
    requires InInt64(v)
    ensures Atoi(Itoa(v)) == Some(v)
  {
    if v < 0 {
      AtoiNegative(-v);
    } else {
      AtoiNatural(v);
    }
  }

  lemma AtoiNatural(n: nat)
    requires n <= MaxInt64
    ensures Atoi(NatText(n)) == Some(n)
  {
    var s := NatText(n);
    assert Unsigned(s) == s;
    NatTextValue(n);
  }

  lemma AtoiNegative(n: nat)
    requires 0 < n <= -MinInt64
    ensures Atoi("-" + NatText(n)) == Some(0 - (n as int))
  {
    var s := "-" + NatText(n);
    assert s[0] == '-';
    assert Unsigned(s) == NatText(n);
    NatTextValue(n);
  }

  /** Number texts hold digits and at most a leading minus: no spaces, commas or other symbols. */
  lemma ItoaChars(v: int, c: char)
    requires !IsDigit(c) && c != '-'
    ensures c !in Itoa(v)
  {
    var digits := if v < 0 then NatText(-v) else NatText(v);
    DigitsExclude(digits, c);
  }

  /** Distinct numbers have distinct `strconv.Itoa` texts. */
  lemma ItoaInjective(a: int, b: int)
    requires InInt64(a) && InInt64(b)
    requires a != b
    ensures Itoa(a) != Itoa(b)
  {
    AtoiItoa(a);
    AtoiItoa(b);
  }
}

=== FILE: gostrings.dfy ===
/**
 * The parts of Go's `strings` package the extractor relies on, for the
 * one-character separators and cutsets it passes: `strings.Split`,
 * `strings.Join`, `strings.TrimRight` and the deleting `strings.Replacer`.
 */
module GoStrings {

  /** Number of occurrences of `c` in `s`. */
  function Count(s: string, c: char): nat
    decreases |s|
  {
    if |s| == 0 then 0 else (if s[0] == c then 1 else 0) + Count(s[1..], c)
  }

  /**
   * `strings.Split(s, sep)` for a one-character `sep`: n separators give
   * n + 1 parts, so the result is never empty, and no part holds `sep`.
   */
  function Split(s: string, sep: char): (parts: seq<string>)
    ensures |parts| == Count(s, sep) + 1
    ensures forall i | 0 <= i < |parts| :: sep !in parts[i]
    decreases |s|
  {
    if |s| == 0 then [""]
    else
      var rest := Split(s[1..], sep);
      if s[0] == sep then [""] + rest
      else [[s[0]] + rest[0]] + rest[1..]
  }

  /** `strings.Join(parts, sep)` for a one-character `sep`. */
  function Join(parts: seq<string>, sep: char): string
    decreases |parts|
  {
    if |parts| == 0 then ""
    else if |parts| == 1 then parts[0]
    else parts[0] + [sep] + Join(parts[1..], sep)
  }

  /** Joining the parts of a split restores the text. */
  lemma {:induction false} JoinSplit(s: string, sep: char)
    ensures Join(Split(s, sep), sep) == s
    decreases |s|
  {
    if |s| > 0 {
      var rest := Split(s[1..], sep);
      JoinSplit(s[1..], sep);
      if s[0] == sep {
        assert Split(s, sep) == [""] + rest;
        assert ([""] + rest)[1..] == rest;
      } else if |rest| > 1 {
        var parts := Split(s, sep);
        assert parts[1..] == rest[1..];
        assert Join(rest, sep) == rest[0] + [sep] + Join(rest[1..], sep);
      }
    }
  }

  lemma {:induction false} SplitNoSep(a: string, sep: char)
    requires sep !in a
    ensures Split(a, sep) == [a]
    decreases |a|
  {
    if |a| > 0 {
      assert sep !in a[1..] by {
        forall i | 0 <= i < |a[1..]| ensures a[1..][i] != sep {
          assert a[1..][i] == a[i + 1];
        }
      }
      SplitNoSep(a[1..], sep);
      assert [a[0]] + a[1..] == a;
    }
  }

  lemma {:induction false} SplitAtSep(a: string, sep: char, b: string)
    requires sep !in a
    ensures Split(a + [sep] + b, sep) == [a] + Split(b, sep)
    decreases |a|
  {
    var s := a + [sep] + b;
    if |a| == 0 {
      assert s[1..] == b;
    } else {
      assert s[1..] == a[1..] + [sep] + b;
      assert sep !in a[1..] by {
        forall i | 0 <= i < |a[1..]| ensures a[1..][i] != sep {
          assert a[1..][i] == a[i + 1];
        }
      }
      SplitAtSep(a[1..], sep, b);
      assert [a[0]] + a[1..] == a;
    }
  }

  /** Splitting a join of separator-free parts gives the parts back. */
  lemma {:induction false} SplitJoin(parts: seq<string>, sep: char)
    requires 1 <= |parts|
    requires forall i | 0 <= i < |parts| :: sep !in parts[i]
    ensures Split(Join(parts, sep), sep) == parts
    decreases |parts|
  {
    if |parts| == 1 {
      SplitNoSep(parts[0], sep);
    } else {
      SplitJoin(parts[1..], sep);
      SplitAtSep(parts[0], sep, Join(parts[1..], sep));
      assert [parts[0]] + parts[1..] == parts;
    }
  }

  /** The first part of a split is the text before the first separator. */
  lemma {:induction false} SplitFirst(s: string, sep: char)
    ensures Split(s, sep)[0] <= s
    ensures |Split(s, sep)[0]| == |s| || s[|Split(s, sep)[0]|] == sep
    decreases |s|
  {
    if |s| > 0 && s[0] != sep {
      SplitFirst(s[1..], sep);
    }
  }

  /** `strings.TrimRight(s, cutset)` for a one-character cutset `c`. */
  function TrimRight(s: string, c: char): (r: string)
    ensures r <= s
    ensures |r| == 0 || r[|r| - 1] != c
    ensures forall i | |r| <= i < |s| :: s[i] == c
    decreases |s|
  {
    if |s| == 0 || s[|s| - 1] != c then s else TrimRight(s[..|s| - 1], c)
  }

  /** One trailing cut character is trimmed from a text that does not already end in it. */
  lemma TrimRightOne(s: string, c: char)
    requires |s| == 0 || s[|s| - 1] != c
    ensures TrimRight(s + [c], c) == s
  {
    assert (s + [c])[..|s + [c]| - 1] == s;
  }

  /** Trimming twice trims nothing more. */
  lemma TrimRightIdempotent(s: string, c: char)
    ensures TrimRight(TrimRight(s, c), c) == TrimRight(s, c)
  {
  }

  /** Index of the first of `olds` (in argument order) that starts `s`, if any. */
  function FirstMatch(s: string, olds: seq<string>): (k: int)
    ensures -1 <= k < |olds|
    ensures 0 <= k ==> olds[k] <= s
    ensures forall j | 0 <= j < |olds| && (k < 0 || j < k) :: !(olds[j] <= s)
    decreases |olds|
  {
    if |olds| == 0 then -1
    else if olds[0] <= s then 0
    else
      var k := FirstMatch(s, olds[1..]);
      if k < 0 then -1 else k + 1
  }

  /**
   * `strings.NewReplacer(old1, "", old2, "", ...).Replace(s)`: one left-to-right
   * pass that deletes, at each position, the first `old` in argument order that
   * matches there and resumes after it; text produced by a deletion is not
   * rescanned.
   */
  function DeleteAll(s: string, olds: seq<string>): (r: string)
    requires forall j | 0 <= j < |olds| :: |olds[j]| > 0
    ensures |r| <= |s|
    decreases |s|
  {
    if |s| == 0 then ""
    else
      var k := FirstMatch(s, olds);
      if k < 0 then [s[0]] + DeleteAll(s[1..], olds)
      else DeleteAll(s[|olds[k]|..], olds)
  }

  /** A one-character `old` never survives the replacement, and it only shortens the text. */
  lemma {:induction false} DeleteAllRemovesChar(s: string, olds: seq<string>, j: nat)
    requires forall i | 0 <= i < |olds| :: |olds[i]| > 0
    requires j < |olds| && |olds[j]| == 1
    ensures olds[j][0] !in DeleteAll(s, olds)
    ensures |DeleteAll(s, olds)| <= |s|
    decreases |s|
  {
    if |s| > 0 {
      var k := FirstMatch(s, olds);
      if k < 0 {
        assert !(olds[j] <= s);
        DeleteAllRemovesChar(s[1..], olds, j);
      } else {
        DeleteAllRemovesChar(s[|olds[k]|..], olds, j);
      }
    }
  }

  /** Text in which no `old` can start is returned unchanged. */
  lemma {:induction false} DeleteAllKeeps(s: string, olds: seq<string>)
    requires forall i | 0 <= i < |olds| :: |olds[i]| > 0
    requires forall i | 0 <= i < |olds| :: olds[i][0] !in s
    ensures DeleteAll(s, olds) == s
    decreases |s|
  {
    if |s| > 0 {
      var k := FirstMatch(s, olds);
      assert k < 0;
      assert forall i | 0 <= i < |olds| :: olds[i][0] !in s[1..] by {
        forall i | 0 <= i < |olds| ensures olds[i][0] !in s[1..] {
          assert forall m | 0 <= m < |s[1..]| :: s[1..][m] == s[m + 1];
        }
      }
      DeleteAllKeeps(s[1..], olds);
      assert [s[0]] + s[1..] == s;
    }
  }

  /** A prefix in which no `old` can start passes through unchanged, whatever follows it. */
  lemma {:induction false} DeleteAllPrefix(x: string, s: string, olds: seq<string>)
    requires forall i | 0 <= i < |olds| :: |olds[i]| > 0
    requires forall i | 0 <= i < |olds| :: olds[i][0] !in x
    ensures DeleteAll(x + s, olds) == x + DeleteAll(s, olds)
    decreases |x|
  {
    if |x| == 0 {
      assert x + s == s;
    } else {
      var k := FirstMatch(x + s, olds);
      assert (x + s)[0] == x[0];
      assert k < 0;
      assert (x + s)[1..] == x[1..] + s;
      assert forall i | 0 <= i < |olds| :: olds[i][0] !in x[1..] by {
        forall i | 0 <= i < |olds| ensures olds[i][0] !in x[1..] {
          assert forall m | 0 <= m < |x[1..]| :: x[1..][m] == x[m + 1];
        }
      }
      assert DeleteAll(x + s, olds) == [x[0]] + DeleteAll(x[1..] + s, olds);
      DeleteAllPrefix(x[1..], s, olds);
      assert [x[0]] + (x[1..] + DeleteAll(s, olds)) == x + DeleteAll(s, olds);
    }
  }

  /** When `olds[k]` is the first match at the start of the text, exactly that match is deleted. */
  lemma DeleteAllMatch(s: string, olds: seq<string>, k: nat)
    requires forall i | 0 <= i < |olds| :: |olds[i]| > 0
    requires k < |olds| && FirstMatch(olds[k] + s, olds) == k
    ensures DeleteAll(olds[k] + s, olds) == DeleteAll(s, olds)
  {
    assert (olds[k] + s)[|olds[k]|..] == s;
  }
}

=== FILE: gotime.dfy ===
/**
 * The parts of Go's `time` package the pipeline relies on: `time.Parse` with
 * the layout "02-01-2006" (day-month-year), its inverse `Time.Format`, and
 * adding whole days to an abstract clock reading.
 */
module GoTime {
  import opened Wrappers
  import opened Decimal

  /** A calendar date as `time.Parse` produces it (midnight UTC of that day). */
  datatype Date = Date(year: int, month: int, day: int)

  /** An abstract clock reading in seconds; time zones are not modelled. */
  type Instant = int

  const SecondsPerDay: int := 86400

  /** `t.AddDate(0, 0, n)`, ignoring daylight-saving shifts. */
  function AddDays(t: Instant, n: int): (r: Instant)
    ensures n > 0 ==> r > t
  {
    t + n * SecondsPerDay
  }

  /** The Gregorian leap-year rule. */
  predicate IsLeap(year: int) {
    year % 4 == 0 && (year % 100 != 0 || year % 400 == 0)
  }

  /** Length of `month` (1..12) in `year`. */
  function DaysIn(month: int, year: int): (n: int)
    requires 1 <= month <= 12
    ensures 28 <= n <= 31
    ensures n == 29 <==> month == 2 && IsLeap(year)
  {
    if month == 2 then (if IsLeap(year) then 29 else 28)
    else if month == 4 || month == 6 || month == 9 || month == 11 then 30
    else 31
  }

  /** A date the layout "02-01-2006" can denote: a real day of a four-digit year. */
  predicate ValidDate(d: Date) {
    && 0 <= d.year <= 9999
    && 1 <= d.month <= 12
    && 1 <= d.day <= DaysIn(d.month, d.year)
  }

  /**
   * `time.Parse("02-01-2006", s)`: exactly two day digits, '-', two month
   * digits, '-', four year digits and nothing more; the month must be 01..12
   * and the day must exist in that month of that year.
   */
  function ParseDate(s: string): (r: Option<Date>)
    ensures r.Some? ==> ValidDate(r.value)
  {
    if |s| != 10 || s[2] != '-' || s[5] != '-'
       || !AllDigits(s[0..2]) || !AllDigits(s[3..5]) || !AllDigits(s[6..10])
    then None
    else
      var day := DigitsValue(s[0..2]);
      var month := DigitsValue(s[3..5]);
      var year := DigitsValue(s[6..10]);
      DigitsBound(s[6..10]);
      if month < 1 || 12 < month then None
      else if day < 1 || DaysIn(month, year) < day then None
      else Some(Date(year, month, day))
  }

  /** `d.Format("02-01-2006")`. */
  function FormatDate(d: Date): (s: string)
    requires ValidDate(d)
    ensures |s| == 10
  {
    Padded(d.day, 2) + "-" + Padded(d.month, 2) + "-" + Padded(d.year, 4)
  }

  /** Every valid date survives formatting and parsing. */
  lemma ParseFormat(d: Date)
    requires ValidDate(d)
    ensures ParseDate(FormatDate(d)) == Some(d)
  {
    ParseFields(d.day, d.month, d.year);
  }

  /** Every accepted text is the formatted form of the date it denotes. */
  lemma FormatParse(s: string)
    requires ParseDate(s).Some?
    ensures FormatDate(ParseDate(s).value) == s
  {
    var d := ParseDate(s).value;
    PaddedOfDigits(s[0..2]);
    PaddedOfDigits(s[3..5]);
    PaddedOfDigits(s[6..10]);
    assert s == s[0..2] + "-" + s[3..5] + "-" + s[6..10];
  }

  /** The three fields of a `DD-MM-YYYY`-shaped text sit at fixed positions. */
  lemma FieldSlices(dd: string, mm: string, yyyy: string)
    requires |dd| == 2 && |mm| == 2 && |yyyy| == 4
    ensures var s := dd + "-" + mm + "-" + yyyy;
      |s| == 10 && s[2] == '-' && s[5] == '-' && s[0..2] == dd && s[3..5] == mm && s[6..10] == yyyy
  {
  }

  /** A text of zero-padded fields parses iff its fields name a real day. */
  lemma ParseFields(day: nat, month: nat, year: nat)
    requires day < 100 && month < 100 && year < 10000
    ensures var s := Padded(day, 2) + "-" + Padded(month, 2) + "-" + Padded(year, 4);
      ParseDate(s) == if ValidDate(Date(year, month, day)) then Some(Date(year, month, day)) else None
  {
    FieldSlices(Padded(day, 2), Padded(month, 2), Padded(year, 4));
    assert Pow10(2) == 100 && Pow10(4) == 10000;
    PaddedValue(day, 2);
    PaddedValue(month, 2);
    PaddedValue(year, 4);
  }

  /** `time.Parse` accepts the 29th of February of a four-digit year exactly when that year is a leap year. */
  lemma LeapDay(year: nat)
    requires year <= 9999
    ensures ParseDate("29-02-" + Padded(year, 4)).Some? <==> IsLeap(year)
  {
    assert Padded(29, 2) == "29";
    assert Padded(2, 2) == "02";
    assert "29-02-" + Padded(year, 4) == Padded(29, 2) + "-" + Padded(2, 2) + "-" + Padded(year, 4);
    ParseFields(29, 2, year);
  }
}

=== FILE: house.dfy ===
/**
 * The field extractor of the crawl pipeline: five small parsers that turn the
 * already-selected text of one listing detail page into a `House`, and
 * `BuildFromElement`, which runs them in a fixed order, stops at the first
 * failure and logs it instead of propagating it.
 */
module Extractor {
  import opened Wrappers
  import opened Decimal
  import opened GoStrings
  import opened GoTime

  const PriceErrorPrefix: string := "price_error:"
  const IDErrorPrefix: string := "id_error:"
  const AddressErrorPrefix: string := "address_error:"
  const AreaErrorPrefix: string := "area_error:"
  const OfferDateErrorPrefix: string := "offerDate_error:"

  /**
   * The currency literal the price replacer deletes, exactly as the source
   * spells it: the three characters U+00E2 U+201A U+00AC (a mis-decoded euro
   * sign), not the euro sign U+20AC itself.
   */
  const CurrencyLiteral: string := "â‚¬"

  /** The strings `strings.NewReplacer(",", "", CurrencyLiteral, "")` deletes, in argument order. */
  const PriceDeletions: seq<string> := [",", CurrencyLiteral]

  datatype FieldKind = IDField | PriceField | AddressField | AreaField | OfferDateField

  /** A parser failure: which field failed and the text it could not parse. */
  datatype FieldError = FieldError(kind: FieldKind, input: string)

  function Prefix(kind: FieldKind): string {
    match kind
    case IDField => IDErrorPrefix
    case PriceField => PriceErrorPrefix
    case AddressField => AddressErrorPrefix
    case AreaField => AreaErrorPrefix
    case OfferDateField => OfferDateErrorPrefix
  }

  /**
   * The logged message of `errors.WithMessage(cause, prefix)`: the prefix,
   * ": ", then the cause. The wording of Go's own causes is abstracted to the
   * offending text.
   */
  function Message(e: FieldError): (m: string)
    ensures Prefix(e.kind) <= m
    ensures |e.input| <= |m| && m[|m| - |e.input|..] == e.input
  {
    Prefix(e.kind) + ": " + e.input
  }

  datatype Address = Address(city: string, district: string, zipCode: string)

  /** `house.House`; `None` stands for the zero `time.Time`. */
  datatype House = House(
    id: string,
    url: string,
    price: nat,
    area: nat,
    address: Address,
    interior: string,
    offeredAt: Option<Date>,
    crawledAt: Option<Instant>)

  /** `&house.House{}`: every field at its zero value. */
  const EmptyHouse: House := House("", "", 0, 0, Address("", "", ""), "", None, None)

  /** One detail page, reduced to the texts the CSS selectors pick out. */
  datatype Page = Page(
    path: string,
    url: string,
    priceText: string,
    addressText: string,
    areaText: string,
    offerDateText: string,
    interiorText: string)

  /** `setIDFromURL`: the fourth `/`-separated part of the URL path. */
  function IdFromPath(path: string): (r: Result<string, FieldError>)
    ensures r.Err? <==> Count(path, '/') < 3
    ensures r.Err? ==> r.error.kind == IDField
    ensures r.Ok? ==> '/' !in r.value
  {
    var parts := Split(path, '/');
    if |parts| < 4 then Err(FieldError(IDField, path)) else Ok(parts[3])
  }

  /** The text before the first space: `strings.Split(text, " ")[0]`, which always exists. */
  function FirstToken(text: string): (t: string)
    ensures t <= text && ' ' !in t
    ensures |t| == |text| || text[|t|] == ' '
  {
    SplitFirst(text, ' ');
    Split(text, ' ')[0]
  }

  /**
   * `setPriceFromText`: delete every "," and currency literal from the first
   * token, read it with `strconv.Atoi` and store it as a `uint`, so a negative
   * number wraps modulo 2^64.
   */
  function PriceFromText(text: string): (r: Result<nat, FieldError>)
    ensures r.Err? ==> r.error.kind == PriceField
    ensures r.Ok? ==> r.value < TwoTo64
    ensures r.Ok? <==> Atoi(DeleteAll(FirstToken(text), PriceDeletions)).Some?
  {
    match Atoi(DeleteAll(FirstToken(text), PriceDeletions))
    case None => Err(FieldError(PriceField, text))
    case Some(v) => Ok(ToUint(v))
  }

  /** `setAreaFromText`: the first token read with `strconv.Atoi`, nothing stripped. */
  function AreaFromText(text: string): (r: Result<nat, FieldError>)
    ensures r.Err? ==> r.error.kind == AreaField
    ensures r.Ok? ==> r.value < TwoTo64
    ensures r.Ok? <==> Atoi(FirstToken(text)).Some?
  {
    match Atoi(FirstToken(text))
    case None => Err(FieldError(AreaField, text))
    case Some(v) => Ok(ToUint(v))
  }

  /** What `setAddressFromText` reads: the zip code and the bracketed part. */
  datatype AddressParts = AddressParts(zipCode: string, bracketed: string)

  /**
   * Split on "(": the zip code is the text before the first "(" without its
   * trailing spaces, the bracketed part is the text up to the second "("
   * without its trailing ")".
   */
  function AddressFromText(text: string): (r: Result<AddressParts, FieldError>)
    ensures r.Err? <==> '(' !in text
    ensures r.Err? ==> r.error.kind == AddressField
    ensures r.Ok? ==> r.value.zipCode <= text && '(' !in r.value.zipCode
    ensures r.Ok? ==> '(' !in r.value.bracketed
  {
    var parts := Split(text, '(');
    CountZero(text, '(');
    if |parts| < 2 then Err(FieldError(AddressField, text))
    else
      SplitFirst(text, '(');
      Ok(AddressParts(TrimRight(parts[0], ' '), TrimRight(parts[1], ')')))
  }

  /** `setOfferDateFromText`: `time.Parse("02-01-2006", text)`. */
  function OfferDateFromText(text: string): (r: Result<Date, FieldError>)
    ensures r.Err? <==> ParseDate(text).None?
    ensures r.Err? ==> r.error.kind == OfferDateField
    ensures r.Ok? ==> ValidDate(r.value) && FormatDate(r.value) == text
  {
    match ParseDate(text)
    case None => Err(FieldError(OfferDateField, text))
    case Some(d) => FormatParse(text); Ok(d)
  }

  lemma {:induction false} CountZero(s: string, c: char)
    ensures Count(s, c) == 0 <==> c !in s
    decreases |s|
  {
    if |s| > 0 {
      CountZero(s[1..], c);
      assert s == [s[0]] + s[1..];
    }
  }

  /** The outcome of `BuildFromElement`: the house as left behind, and what was logged. */
  datatype Built = Built(house: House, logged: Option<FieldError>)

  predicate AllFieldsParse(page: Page) {
    && IdFromPath(page.path).Ok?
    && PriceFromText(page.priceText).Ok?
    && AddressFromText(page.addressText).Ok?
    && AreaFromText(page.areaText).Ok?
    && OfferDateFromText(page.offerDateText).Ok?
  }

  /**
   * `(*House).BuildFromElement`: ID, URL, price, address, area and offer date
   * are set in that order; the first failure is logged and the remaining
   * steps are skipped, so later fields keep their prior values. `Interior`
   * and `CrawledAt` are set only when every parser succeeds. Nothing is
   * returned to the caller either way.
   */
  function BuildFromElement(h: House, page: Page, now: Instant): (r: Built)
    ensures r.logged.None? <==> AllFieldsParse(page)
    ensures r.logged.None? ==> r.house.interior == page.interiorText && r.house.crawledAt == Some(now)
    ensures r.logged.Some? ==> r.house.interior == h.interior && r.house.crawledAt == h.crawledAt
    ensures r.logged.Some? && r.logged.value.kind == IDField ==> r.house == h
    ensures r.house.address.city == h.address.city
  {
    match IdFromPath(page.path)
    case Err(e) => Built(h, Some(e))
    case Ok(id) =>
      var h1 := h.(id := id, url := page.url);
      match PriceFromText(page.priceText)
      case Err(e) => Built(h1, Some(e))
      case Ok(price) =>
        var h2 := h1.(price := price);
        match AddressFromText(page.addressText)
        case Err(e) => Built(h2, Some(e))
        case Ok(parts) =>
          var h3 := h2.(address := Address(h2.address.city, parts.bracketed, parts.zipCode));
          match AreaFromText(page.areaText)
          case Err(e) => Built(h3, Some(e))
          case Ok(area) =>
            var h4 := h3.(area := area);
            match OfferDateFromText(page.offerDateText)
            case Err(e) => Built(h4, Some(e))
            case Ok(date) =>
              var h5 := h4.(offeredAt := Some(date));
              Built(h5.(interior := page.interiorText, crawledAt := Some(now)), None)
  }

  /** The first token of a text is everything before its first space. */
  lemma FirstTokenOf(token: string, rest: string)
    requires ' ' !in token
    ensures FirstToken(token + " " + rest) == token
  {
    SplitAtSep(token, ' ', rest);
  }

  /** The ID is the fourth part of a path assembled from `/`-free parts. */
  lemma IdFromJoinedPath(parts: seq<string>)
    requires 4 <= |parts|
    requires forall i | 0 <= i < |parts| :: '/' !in parts[i]
    ensures IdFromPath(Join(parts, '/')) == Ok(parts[3])
  {
    SplitJoin(parts, '/');
  }

  /** A plain price such as "1250 per month" reads as its number. */
  lemma PriceOfNumber(n: nat, rest: string)
    requires n <= MaxInt64
    ensures PriceFromText(Itoa(n) + " " + rest) == Ok(n)
  {
    PriceOfItoa(n, rest);
  }

  /** Any 64-bit number written by `strconv.Itoa` and followed by a space reads back, as a `uint`. */
  lemma PriceOfItoa(v: int, rest: string)
    requires InInt64(v)
    ensures PriceFromText(Itoa(v) + " " + rest) == Ok(ToUint(v))
  {
    var token := Itoa(v);
    ItoaChars(v, ' ');
    ItoaChars(v, ',');
    ItoaChars(v, CurrencyLiteral[0]);
    FirstTokenOf(token, rest);
    DeleteAllKeeps(token, PriceDeletions);
    AtoiItoa(v);
  }

  /** A price with the currency literal written before the number reads as that number. */
  lemma PriceWithCurrency(n: nat, rest: string)
    requires n <= MaxInt64
    ensures PriceFromText(CurrencyLiteral + Itoa(n) + " " + rest) == Ok(n)
  {
    var digits := Itoa(n);
    var token := CurrencyLiteral + digits;
    ItoaChars(n, ' ');
    assert ' ' !in token by {
      assert forall m | 0 <= m < |token| :: token[m] == (if m < 3 then CurrencyLiteral[m] else digits[m - 3]);
    }
    assert CurrencyLiteral + digits + " " + rest == token + " " + rest;
    FirstTokenOf(token, rest);
    assert !(PriceDeletions[0] <= token);
    assert PriceDeletions[1] <= token;
    DeleteAllMatch(digits, PriceDeletions, 1);
    ItoaChars(n, ',');
    ItoaChars(n, CurrencyLiteral[0]);
    DeleteAllKeeps(digits, PriceDeletions);
    AtoiItoa(n);
  }

  /** Between two digit runs the replacer deletes just the separator. */
  lemma DeleteSeparator(high: string, low: string)
    requires AllDigits(high) && AllDigits(low)
    ensures DeleteAll(high + "," + low, PriceDeletions) == high + low
  {
    DigitsExclude(high, ',');
    DigitsExclude(high, CurrencyLiteral[0]);
    DigitsExclude(low, ',');
    DigitsExclude(low, CurrencyLiteral[0]);
    assert high + "," + low == high + ("," + low);
    DeleteAllPrefix(high, "," + low, PriceDeletions);
    assert FirstMatch("," + low, PriceDeletions) == 0;
    assert ("," + low)[1..] == low;
    DeleteAllKeeps(low, PriceDeletions);
  }

  /** The digits of `a` followed by the three digits of `b` read as a * 1000 + b. */
  lemma ThousandsValue(a: nat, b: nat)
    requires b < 1000 && a * 1000 + b <= MaxInt64
    ensures Atoi(Itoa(a) + Padded(b, 3)) == Some(a * 1000 + b)
  {
    var high := Itoa(a);
    var low := Padded(b, 3);
    DigitsConcat(high, low);
    NatTextValue(a);
    assert Pow10(3) == 1000;
    PaddedValue(b, 3);
    assert Unsigned(high + low) == high + low;
  }

  /** A thousands separator is deleted: "1,250 per month" reads as 1250. */
  lemma PriceWithThousands(a: nat, b: nat, rest: string)
    requires b < 1000 && a * 1000 + b <= MaxInt64
    ensures PriceFromText(Itoa(a) + "," + Padded(b, 3) + " " + rest) == Ok(a * 1000 + b)
  {
    var high := Itoa(a);
    var low := Padded(b, 3);
    var token := high + "," + low;
    DigitsExclude(high, ' ');
    DigitsExclude(low, ' ');
    assert ' ' !in token;
    FirstTokenOf(token, rest);
    DeleteSeparator(high, low);
    ThousandsValue(a, b);
  }

  /**
   * A first token that starts with a symbol other than a sign, a digit or a
   * deleted string does not parse as a price.
   */
  lemma LeadingSymbolRejected(c: char, token: string, rest: string)
    requires !IsDigit(c) && c != '+' && c != '-' && c != ' '
    requires c != ',' && c != CurrencyLiteral[0]
    requires ' ' !in token
    ensures PriceFromText([c] + token + " " + rest).Err?
  {
    assert ' ' !in [c] + token;
    FirstTokenOf([c] + token, rest);
    DeleteAllPrefix([c], token, PriceDeletions);
    var cleaned := DeleteAll([c] + token, PriceDeletions);
    assert cleaned[0] == c;
    assert Unsigned(cleaned) == cleaned;
  }

  /**
   * The euro sign itself (U+20AC) is not among the deleted strings, so a price
   * text that starts with it does not parse.
   */
  lemma EuroSignNotDeleted()
    ensures PriceFromText("€1,250 per month").Err?
  {
    assert "€1,250 per month" == ['€'] + "1,250" + " " + "per month";
    LeadingSymbolRejected('€', "1,250", "per month");
  }

  /** A negative first token such as "-5" is accepted and wraps modulo 2^64. */
  lemma NegativePriceWraps(n: nat, rest: string)
    requires 0 < n <= -MinInt64
    ensures PriceFromText("-" + Itoa(n) + " " + rest) == Ok(TwoTo64 - n)
  {
    var v := 0 - (n as int);
    assert Itoa(v) == "-" + Itoa(n);
    PriceOfItoa(v, rest);
  }

  /** A plain area such as "85 m²" reads as its number. */
  lemma AreaOfNumber(n: nat, rest: string)
    requires n <= MaxInt64
    ensures AreaFromText(Itoa(n) + " " + rest) == Ok(n)
  {
    DigitsExclude(Itoa(n), ' ');
    FirstTokenOf(Itoa(n), rest);
    AtoiItoa(n);
  }

  /** Any 64-bit number written by `strconv.Itoa` and followed by a space reads as the area `uint(v)`, so negative numbers wrap. */
  lemma AreaOfItoa(v: int, rest: string)
    requires InInt64(v)
    ensures AreaFromText(Itoa(v) + " " + rest) == Ok(ToUint(v))
  {
    ItoaChars(v, ' ');
    FirstTokenOf(Itoa(v), rest);
    AtoiItoa(v);
  }

  /** Unlike the price, the area keeps its separators: "1,200 m²" does not parse. */
  lemma AreaSeparatorRejected()
    ensures AreaFromText("1,200 m²").Err?
  {
    FirstTokenOf("1,200", "m²");
    assert Unsigned("1,200") == "1,200";
    assert !IsDigit("1,200"[1]);
  }

  /**
   * The zip code is the text before the first "(" and the bracketed part
   * the text between the first and the second "(".
   */
  lemma AddressFields(a: string, b: string, c: string)
    requires '(' !in a && '(' !in b
    requires c == "" || c[0] == '('
    ensures AddressFromText(a + "(" + b + c) == Ok(AddressParts(TrimRight(a, ' '), TrimRight(b, ')')))
  {
    assert a + "(" + b + c == a + ['('] + (b + c);
    SplitAtSep(a, '(', b + c);
    if c == "" {
      assert b + c == b;
      SplitNoSep(b, '(');
    } else {
      assert b + c == b + ['('] + c[1..];
      SplitAtSep(b, '(', c[1..]);
    }
  }

  /** "1017 AB (Grachtengordel-Zuid)" reads back as its zip code and district. */
  lemma AddressRoundTrip(zip: string, district: string)
    requires '(' !in zip && (|zip| == 0 || zip[|zip| - 1] != ' ')
    requires '(' !in district && (|district| == 0 || district[|district| - 1] != ')')
    ensures AddressFromText(zip + " (" + district + ")") == Ok(AddressParts(zip, district))
  {
    assert zip + " (" + district + ")" == (zip + " ") + "(" + (district + ")") + "";
    AddressFields(zip + " ", district + ")", "");
    TrimRightOne(zip, ' ');
    TrimRightOne(district, ')');
  }

  /**
   * `BuildFromElement` stops at the first failing parser: it logs that
   * parser's error, and the fields of the later steps keep their prior values.
   */
  lemma BuildStopsAtFirstFailure(h: House, page: Page, now: Instant)
    ensures var r := BuildFromElement(h, page, now);
      && (IdFromPath(page.path).Err? ==> r == Built(h, Some(IdFromPath(page.path).error)))
      && (IdFromPath(page.path).Ok? && PriceFromText(page.priceText).Err? ==>
            r == Built(h.(id := IdFromPath(page.path).value, url := page.url),
                       Some(PriceFromText(page.priceText).error)))
      && (IdFromPath(page.path).Ok? && PriceFromText(page.priceText).Ok?
          && AddressFromText(page.addressText).Err? ==>
            r.logged == Some(AddressFromText(page.addressText).error)
            && r.house == h.(id := r.house.id, url := page.url, price := r.house.price))
      && (IdFromPath(page.path).Ok? && PriceFromText(page.priceText).Ok?
          && AddressFromText(page.addressText).Ok? && AreaFromText(page.areaText).Err? ==>
            r.logged == Some(AreaFromText(page.areaText).error)
            && r.house.area == h.area && r.house.offeredAt == h.offeredAt)
      && (IdFromPath(page.path).Ok? && PriceFromText(page.priceText).Ok?
          && AddressFromText(page.addressText).Ok? && AreaFromText(page.areaText).Ok?
          && OfferDateFromText(page.offerDateText).Err? ==>
            r.logged == Some(OfferDateFromText(page.offerDateText).error)
            && r.house.offeredAt == h.offeredAt)
  {
  }

  /** The houses the renderer below can write: fields each parser reads back unchanged. */
  predicate Renderable(h: House) {
    && '/' !in h.id
    && h.price <= MaxInt64
    && h.area <= MaxInt64
    && '(' !in h.address.zipCode
    && (|h.address.zipCode| == 0 || h.address.zipCode[|h.address.zipCode| - 1] != ' ')
    && '(' !in h.address.district
    && (|h.address.district| == 0 || h.address.district[|h.address.district| - 1] != ')')
    && h.offeredAt.Some? && ValidDate(h.offeredAt.value)
  }

  /** A detail page laid out the way the listing site shows a house. */
  function RenderPage(h: House): Page
    requires Renderable(h)
  {
    Page(
      Join(["", "apartment-for-rent", "listing", h.id], '/'),
      h.url,
      Itoa(h.price) + " " + "per month",
      h.address.zipCode + " (" + h.address.district + ")",
      Itoa(h.area) + " " + "m²",
      FormatDate(h.offeredAt.value),
      h.interior)
  }

  /**
   * Extraction inverts rendering: a fresh house built from a rendered page has
   * every field of the original, except the city (never set) and the crawl time.
   */
  lemma ExtractRendered(h: House, now: Instant)
    requires Renderable(h)
    ensures BuildFromElement(EmptyHouse, RenderPage(h), now)
            == Built(h.(address := h.address.(city := ""), crawledAt := Some(now)), None)
  {
    var page := RenderPage(h);
    RenderedFieldsParse(h);
    BuildComplete(EmptyHouse, page, now);
  }

  /** Each field of a rendered page reads back as the value it was rendered from. */
  lemma RenderedFieldsParse(h: House)
    requires Renderable(h)
    ensures IdFromPath(RenderPage(h).path) == Ok(h.id)
    ensures PriceFromText(RenderPage(h).priceText) == Ok(h.price)
    ensures AddressFromText(RenderPage(h).addressText) == Ok(AddressParts(h.address.zipCode, h.address.district))
    ensures AreaFromText(RenderPage(h).areaText) == Ok(h.area)
    ensures OfferDateFromText(RenderPage(h).offerDateText) == Ok(h.offeredAt.value)
  {
    IdFromJoinedPath(["", "apartment-for-rent", "listing", h.id]);
    PriceOfNumber(h.price, "per month");
    AddressRoundTrip(h.address.zipCode, h.address.district);
    AreaOfNumber(h.area, "m²");
    ParseFormat(h.offeredAt.value);
  }

  /** When every parser succeeds, each field holds what its parser read; only the city is kept. */
  lemma BuildComplete(h: House, page: Page, now: Instant)
    requires AllFieldsParse(page)
    ensures var parts := AddressFromText(page.addressText).value;
      BuildFromElement(h, page, now) == Built(House(
        IdFromPath(page.path).value,
        page.url,
        PriceFromText(page.priceText).value,
        AreaFromText(page.areaText).value,
        Address(h.address.city, parts.bracketed, parts.zipCode),
        page.interiorText,
        Some(OfferDateFromText(page.offerDateText).value),
        Some(now)), None)
  {
  }
}

=== FILE: scraper.dfy ===
/**
 * The deterministic parts of `ScrapHouses`: the listing-page URL, the allowed
 * domains read from configuration, and the detail handler that builds one
 * house per matched detail element. Fetching, rate limiting and the
 * concurrent callbacks are not modelled; the detail pages arrive as a list.
 */
module Scraper {
  import opened Wrappers
  import opened Decimal
  import opened GoStrings
  import opened GoTime
  import opened Extractor

  const PageSegment: string := "/page-"

  /**
   * The URL of listing page `pageNumber`: the configured URL itself for
   * `pageNumber <= 0`, otherwise followed by "/page-" and the page number.
   */
  function ListingUrl(base: string, pageNumber: int): (url: string)
    ensures base <= url
    ensures pageNumber <= 0 <==> url == base
  {
    var n := if pageNumber > 0 then Itoa(pageNumber) else "";
    if n != "" then base + PageSegment + n else base
  }

  /** Reads the page number back from a listing URL; the inverse of `ListingUrl`. */
  function PageOf(base: string, url: string): Option<int>
  {
    if url == base then Some(0)
    else if |url| > |base| + |PageSegment| && url[..|base| + |PageSegment|] == base + PageSegment
    then Atoi(url[|base| + |PageSegment|..])
    else None
  }

  /** Every listing URL names its page: non-positive page numbers all name page 0. */
  lemma PageOfListingUrl(base: string, pageNumber: int)
    requires pageNumber <= MaxInt64
    ensures PageOf(base, ListingUrl(base, pageNumber)) == Some(if pageNumber > 0 then pageNumber else 0)
  {
    if pageNumber > 0 {
      var url := ListingUrl(base, pageNumber);
      assert url[..|base| + |PageSegment|] == base + PageSegment;
      assert url[|base| + |PageSegment|..] == Itoa(pageNumber);
      AtoiItoa(pageNumber);
    }
  }

  /** Distinct positive page numbers give distinct listing URLs. */
  lemma ListingUrlInjective(base: string, a: int, b: int)
    requires 0 < a <= MaxInt64 && 0 < b <= MaxInt64 && a != b
    ensures ListingUrl(base, a) != ListingUrl(base, b)
  {
    PageOfListingUrl(base, a);
    PageOfListingUrl(base, b);
  }

  /** `strings.Split(os.Getenv("ALLOWED_DOMAINS"), ",")`. */
  function AllowedDomains(config: string): (domains: seq<string>)
    ensures 1 <= |domains|
    ensures forall i | 0 <= i < |domains| :: ',' !in domains[i]
    ensures Join(domains, ',') == config
  {
    JoinSplit(config, ',');
    Split(config, ',')
  }

  /** `h := &house.House{}; h.BuildFromElement(e)`: the house one detail element yields. */
  function DetailHouse(page: Page, now: Instant): House {
    BuildFromElement(EmptyHouse, page, now).house
  }

  /**
   * The detail handler over every matched detail element: each builds a fresh
   * house and appends it, whether or not the build finished. `clock(i)` is the
   * time when the i-th build completes.
   */
  method CollectDetails(pages: seq<Page>, clock: nat -> Instant) returns (houses: seq<House>)
    ensures |houses| == |pages|
    ensures forall i | 0 <= i < |pages| :: houses[i] == DetailHouse(pages[i], clock(i))
    ensures forall i | 0 <= i < |pages| :: IdFromPath(pages[i].path).Err? ==> houses[i] == EmptyHouse
    ensures forall i | 0 <= i < |pages| :: AllFieldsParse(pages[i]) <==> houses[i].crawledAt == Some(clock(i))
  {
    houses := MapIndexed(pages, (page, i) => DetailHouse(page, clock(i)));
    DetailFacts(pages, clock, houses);
  }

  /** Applies `f` to every element together with its position, in order. */
  method MapIndexed<A, B>(xs: seq<A>, f: (A, nat) -> B) returns (ys: seq<B>)
    ensures |ys| == |xs|
    ensures forall i | 0 <= i < |xs| :: ys[i] == f(xs[i], i)
  {
    ys := [];
    var k := 0;
    while k < |xs|
      invariant 0 <= k <= |xs|
      invariant |ys| == k
      invariant forall i | 0 <= i < k :: ys[i] == f(xs[i], i)
    {
      ys := ys + [f(xs[k], k)];
      k := k + 1;
    }
  }

  lemma DetailFacts(pages: seq<Page>, clock: nat -> Instant, houses: seq<House>)
    requires |houses| == |pages|
    requires forall i | 0 <= i < |pages| :: houses[i] == DetailHouse(pages[i], clock(i))
    ensures forall i | 0 <= i < |pages| :: IdFromPath(pages[i].path).Err? ==> houses[i] == EmptyHouse
    ensures forall i | 0 <= i < |pages| :: AllFieldsParse(pages[i]) <==> houses[i].crawledAt == Some(clock(i))
  {
    forall i | 0 <= i < |pages|
      ensures IdFromPath(pages[i].path).Err? ==> houses[i] == EmptyHouse
      ensures AllFieldsParse(pages[i]) <==> houses[i].crawledAt == Some(clock(i))
    {
      FreshBuild(pages[i], clock(i));
    }
  }

  /**
   * A fresh house is left empty when its ID cannot be read, and carries a
   * crawl time exactly when every field parsed.
   */
  lemma FreshBuild(page: Page, now: Instant)
    ensures var h := DetailHouse(page, now);
      && (IdFromPath(page.path).Err? ==> h == EmptyHouse)
      && (AllFieldsParse(page) <==> h.crawledAt == Some(now))
  {
  }

  /**
   * `ScrapHouses`: nil when the collector's limit rule cannot be set (no page
   * is visited), otherwise one house per detail page reached from the listing.
   */
  method ScrapHouses(limitRuleOk: bool, pages: seq<Page>, clock: nat -> Instant)
    returns (houses: Option<seq<House>>)
    ensures !limitRuleOk <==> houses.None?
    ensures houses.Some? ==> |houses.value| == |pages|
    ensures houses.Some? ==> forall i | 0 <= i < |pages| ::
      houses.value[i] == DetailHouse(pages[i], clock(i))
  {
    if !limitRuleOk {
      return None;
    }
    var built := CollectDetails(pages, clock);
    houses := Some(built);
  }
}

=== FILE: wrappers.dfy ===
/** Failure-carrying wrappers shared by every module of the model. */
module Wrappers {

  /** A value that may be absent; `None` also stands for Go's nil slice or nil map. */
  datatype Option<+T> = None | Some(value: T)

  /** The value of a Go `(T, error)` pair: either the result or the error. */
  datatype Result<+T, +E> = Ok(value: T) | Err(error: E)
}
